=== FILE: README.md ===
# Slingshot game: state transitions

A Dafny model of the game logic of a small browser slingshot game
(`game.js`). The player presses near the slingshot's anchor, drags to pull
the band and releases to launch a projectile. The projectile then falls under
gravity, is slowed by air resistance, bounces off the ground and the side
walls, and scores a hit when it touches the target, which then jumps to a new
random place. A 30-second countdown ends the session.

The whole session is one immutable record (`State.Game`). Every event the game
reacts to is a pure function from one record to the next:

- `Input.MouseDown`, `Input.MouseMove` and `Input.MouseUp` are the bodies of the three pointer listeners.
- `Physics.Update` is the per-frame physics step.
- `Timer.Tick` is the body of the once-per-second countdown.
- `Targets.ResetTarget` with `Random.RandomInt` relocates the target.

`Session` puts these together as a sequence of events (`Session.Run`). It
proves the invariant `Session.Valid` of every reachable state. The invariant
says:

- The slingshot is never aimed while the projectile flies.
- The pull distance stays within [0, 120].
- A projectile that does not fly rests on the anchor.
- The projectile never sinks below the ground.
- The target stays in its region and is never seen marked as hit.
- The countdown stays within [0, 30] and is at 0 exactly when the game is over.

Numbers are Dafny `real`s, an exact stand-in for the program's doubles. All
constants live in module `Config`.

The model's inputs stand in for what the program gets from its environment:

- Pointer positions are parameters of the handlers.
- The values of `Math.random()` are parameters of subset type `Random.Draw`, the reals in [0, 1).
- `Math.hypot`, `Math.atan2`, `Math.cos` and `Math.sin` are function values in a `Numerics.MathLib` record passed to `MouseMove` and `MouseUp`; the press and the target contact test use squared distances (below).
- Their laws are separate predicates, assumed only by the lemmas that need them. `HypotNonNegative` says lengths are never negative, and `HypotLaw` adds that their square is x² + y². `TrigLaw` keeps `cos` and `sin` in [-1, 1]. `PolarLaw` says cos/sin of `atan2(y, x)` scaled by the length give back x and y.

The program tests distances with `Math.hypot(dx, dy) <= r`. The model tests
`dx*dx + dy*dy <= r*r` instead, and `Numerics.WithinRadius` proves the two
tests agree under `HypotLaw`.

Three consequences of `game.js` that the model makes explicit:

- A hit marks the target (game.js:132) and the relocation clears the mark again within the same frame (game.js:134, game.js:143). The mark is therefore never observable between frames (`Session.Valid` includes `!target.hit`).
- The relocation draws a fresh random point of the region and may land on the old position or near the projectile (`Targets.ResetTargetCovers`: every point is possible). Nothing then stops the next frame from scoring again, so one approach of the projectile can score on consecutive frames (`Scenarios.RelocationCanRehit`). What is bounded is one hit per frame.
- A press near the anchor is honoured after the game is over (game.js:51-60 has no game-over test): the projectile is reset and a drag starts, but the drag and the release are gated and then do nothing (`Scenarios.PressAfterGameOverScenario`).

## Model

| member | source | states |
|---|---|---|
| Numerics.WithinRadius | game.js:52-53 | with a lawful `hypot`, a length is within a radius exactly when the squared components sum to at most the squared radius, so the squared tests used for the press and the target contact are the program's tests |
| Random.RandomInt | game.js:85-87 | the floor of `r*(max-min)+min` lies in [min, max-1] when min < max (in [max, min] with the bounds swapped), and is `min` for a zero draw |
| Random.RandomIntCovers | game.js:85-87 | every integer in [min, max) is produced by some draw, so the range above is exact |
| Targets.ResetTarget | game.js:140-144 | relocation clears the hit flag and puts the target at integer coordinates with x in [400, 749] and y in [100, 449] |
| Targets.ResetTargetCovers | game.js:140-143 | every point of that region is a possible relocation |
| Physics.GroundCollision | game.js:117-122 | after the ground test the projectile is above the ground; below it, y is set to 585, the vertical velocity reverses at 60% of its magnitude and the horizontal one keeps direction at 80%; above it nothing changes |
| Physics.WallCollision | game.js:124-127 | the wall test changes only the horizontal velocity, which reverses at 60% of its magnitude; position and vertical velocity are untouched, so the projectile may stay past the wall |
| Physics.Flight | game.js:106-127 | the motion part of a frame moves x by the velocity after drag and never pushes it back, lets the horizontal speed decay by at least the drag factor, in the air moves y and sets the vertical velocity by gravity then drag alone, on landing puts y at 585 with the vertical velocity after gravity and drag times -0.6, always ends above the ground and does not change whether it flies |
| Physics.TargetContact | game.js:129-135 | the counter rises by one exactly when the projectile touches an unmarked target; then the target is relocated into its region with the mark cleared, otherwise it is unchanged; nothing else changes |
| Physics.Update | game.js:104-137 | a frame changes nothing unless the projectile flies and the game runs; otherwise the projectile moves exactly as `Physics.Flight` states; it leaves the projectile above the ground, raises the counter by at most one and exactly on contact, moves the target only on a hit and never marks an unmarked target |
| Physics.LandingBouncesUp | game.js:114-122 | a projectile above the ground at the start of a frame that lands during it ends the frame on the ground line (y = 585) moving upwards |
| Input.MouseDown | game.js:51-61 | a press farther than the fork width from the anchor changes nothing; a nearer one starts a drag and puts the projectile at rest on the anchor, without looking at the game-over flag |
| Input.MouseMove | game.js:63-72 | without a drag in progress, or after the game is over, nothing changes; otherwise the pull is at most 120 and at most the pointer's distance, is the distance unless capped, and the angle is the pointer's direction from the anchor |
| Input.MouseUp | game.js:74-82 | without a drag in progress, or after the game is over, nothing changes; otherwise the drag ends and the projectile flies from where it is with velocity force·(cos a, sin a)·-0.3 for the last recorded pull and angle a, which a press does not reset |
| Input.PullClamp | game.js:66-70 | with a lawful `hypot` the pull after a drag lies in [0, 120] and equals the pointer's distance whenever that is within 120 |
| Input.LaunchSpeedBound | game.js:75-80 | with cos and sin in [-1, 1] and a pull in [0, 120], each launch velocity component is at most 36 in magnitude |
| Input.LaunchOpposesPull | game.js:63-82 | a drag then a release launches along the pull line and away from the pointer; within the cap the launch velocity is exactly -0.3 times the pull vector, beyond it the launch speed is exactly 36 |
| Timer.Tick | game.js:92-99 | after the game is over a tick changes nothing; before, it takes one second off and ends the game when no time is left; only the clock fields change |
| Timer.Ticks | game.js:90-100 | repeated ticks never add time, freeze an ended game and change only the clock fields |
| Timer.Countdown | game.js:92-96 | from a running game with t >= 1 seconds left, n ticks leave max(t-n, 0) seconds and the game is over exactly when n >= t |
| Timer.SessionLength | game.js:43-45 | a fresh session ends after exactly 30 ticks and its clock stays within [0, 30] |
| Session.Initial | game.js:8-45 | the load-time state satisfies the invariant, with no hits, 30 seconds left, nothing aimed and the projectile at rest on the anchor |
| Session.StepPreservesValid | game.js:51-137 | each handler, the frame and the tick keep the invariant, given only a `hypot` that never returns a negative length |
| Session.RunPreservesValid | game.js:51-137 | any sequence of events keeps the invariant |
| Session.NeverAimingWhileFlying | game.js:51-137 | from load time on, the slingshot is never aimed while the projectile flies, the projectile never sinks below the ground and the target is never seen marked |
| Session.ScoreBound | game.js:129-135 | over any sequence of events the counter never decreases and rises by at most the number of frames (so at most the number of events) |
| Session.GameOverIsFinal | game.js:92-105 | once over, the game stays over with clock, score and target frozen, whatever events follow |
| Scenarios.GroundBounceScenario | game.js:106-122 | a projectile at y = 584 falling at 10 ends the frame at y = 585 with vertical velocity -6.237 and horizontal 2 damped to 1.584 |
| Scenarios.WallOverlapScenario | game.js:124-127 | a projectile at x = 790 moving right at 5 ends at x = 794.95, still past the wall, with horizontal velocity -2.97 |
| Scenarios.TargetHitScenario | game.js:129-135 | a projectile reaching (410, 310) hits a target at (400, 300) once, and the target moves into its region |
| Scenarios.FullPullLaunchScenario | game.js:74-80 | releasing a full pull with the pointer left of the anchor (cosine -1, sine 0) launches rightwards at (36, 0) |
| Scenarios.RelocationCanRehit | game.js:129-143 | from a valid state with the projectile at (500, 299.505) over a target at (500, 300), draws 2/7 and 4/7 relocate the target to the same point and two consecutive frames both score, so one approach can count twice |
| Scenarios.PressAfterGameOverScenario | game.js:51-82 | after the game is over a press on the anchor still starts a drag and resets the projectile, but drag and release then change nothing |

## Left out

- Canvas and 2D-context setup and all drawing (the slingshot, the projectile, the target and the score text): presentation only, no logic.
- `bandLength` is never read; `forkHeight` and the two `depth` fields with their 3D scaling are read only by drawing.
- The last pointer position is kept as inert state (`Game.mouse`): the transitions write it but only drawing reads it.
- Registering the listeners, `requestAnimationFrame`, `setInterval`/`clearInterval` and the game-over `alert`: scheduling and I/O. Only the bodies are modelled, and the driver's interleaving is an arbitrary sequence of `Session.Event`s.
- IEEE-754 rounding: numbers are exact reals, so no claim is made about floating-point accuracy.
- The actual values of `Math.hypot`, `Math.atan2`, `Math.cos`, `Math.sin` and `Math.random`: they are parameters, constrained only by the laws stated in `Numerics` and by the draw range [0, 1).
- Rest detection: the program never stops a projectile and lets it bounce forever. The model keeps that, and adds no landed state.

=== FILE: config.dfy ===
/** Fixed configuration of one game session: canvas size, slingshot anchor,
    body radii and the physics factors. Every number the transitions use is
    declared here once. */
module Config {

  /** Canvas size in pixels; the ground is the bottom edge. */
  const CanvasWidth: int := 800
  const CanvasHeight: int := 600
  const Width: real := CanvasWidth as real
  const Height: real := CanvasHeight as real

  /** The slingshot anchor sits 150 pixels above the bottom edge, and a press
      must land within the fork width of it to start aiming. */
  const AnchorX: real := 150.0
  const AnchorY: real := Height - 150.0
  const ForkWidth: real := 30.0

  /** Radii of the projectile and of the target. */
  const Radius: real := 15.0
  const TargetRadius: real := 30.0

  /** Per-step physics factors. */
  const Gravity: real := 0.5
  const AirResistance: real := 0.99
  const GroundFriction: real := 0.8
  /** The literal bounce factor used for both the ground and the walls. */
  const Bounce: real := -0.6

  /** Aiming: the pull distance is capped, and the launch speed is this
      fraction of it. */
  const MaxPull: real := 120.0
  const LaunchPower: real := 0.3

  /** Seconds on the countdown at the start of a session. */
  const TimeLimit: int := 30

  /** The target is relocated to integer coordinates in
      [TargetMinX, TargetMaxX) x [TargetMinY, TargetMaxY). */
  const TargetMinX: int := CanvasWidth / 2
  const TargetMaxX: int := CanvasWidth - 50
  const TargetMinY: int := 100
  const TargetMaxY: int := CanvasHeight - 150
}

=== FILE: input.dfy ===
/** The three pointer handlers of the slingshot: press, drag and release. */
module Input {
  import opened Config
  import opened Numerics
  import opened State

  /** The pointer is within the fork width of the anchor (compared squared). */
  predicate NearAnchor(px: real, py: real) {
    (px - AnchorX) * (px - AnchorX) + (py - AnchorY) * (py - AnchorY) <= ForkWidth * ForkWidth
  }

  /** Drag and release only act while a drag is in progress and the game is
      not over. */
  predicate Aiming(g: Game) {
    g.sling.isDragging && !g.gameOver
  }

  /** Press: near the anchor it starts a drag and puts the projectile back on
      the anchor at rest, whether or not the game is over; anywhere else it is
      ignored. */
  function MouseDown(g: Game, px: real, py: real): (r: Game)
    ensures !NearAnchor(px, py) ==> r == g
    ensures NearAnchor(px, py) ==>
      && r.sling.isDragging && !r.proj.isFlying && AtAnchor(r.proj)
      && r.sling.angle == g.sling.angle && r.sling.force == g.sling.force
      && r.target == g.target && r.mouse == g.mouse && r.successCount == g.successCount
      && r.timeLeft == g.timeLeft && r.gameOver == g.gameOver
  {
    if NearAnchor(px, py) then
      g.(sling := g.sling.(isDragging := true),
         proj := g.proj.(isFlying := false, x := AnchorX, y := AnchorY, vx := 0.0, vy := 0.0))
    else
      g
  }

  /** Drag: records the pointer, the pull angle and the pull distance capped
      at `MaxPull`. */
  function MouseMove(g: Game, m: MathLib, px: real, py: real): (r: Game)
    ensures !Aiming(g) ==> r == g
    ensures Aiming(g) ==>
      && r.sling.force <= MaxPull
      && (r.sling.force == MaxPull || r.sling.force == m.hypot(px - AnchorX, py - AnchorY))
      && r.sling.force <= m.hypot(px - AnchorX, py - AnchorY)
      && r.sling.angle == m.atan2(py - AnchorY, px - AnchorX)
      && r.sling.isDragging && r.mouse == Point(px, py)
      && r.proj == g.proj && r.target == g.target && r.successCount == g.successCount
      && r.timeLeft == g.timeLeft && r.gameOver == g.gameOver
  {
    if Aiming(g) then
      var dx := px - AnchorX;
      var dy := py - AnchorY;
      var distance := Min(MaxPull, m.hypot(dx, dy));
      g.(mouse := Point(px, py), sling := g.sling.(angle := m.atan2(dy, dx), force := distance))
    else
      g
  }

  /** Release: ends the drag and launches the projectile against the pull,
      with a speed of `LaunchPower` times the pull distance. The pull used is
      the one last recorded: a press keeps it, so a release without a drag
      relaunches with the previous shot's pull and angle. */
  function MouseUp(g: Game, m: MathLib): (r: Game)
    ensures !Aiming(g) ==> r == g
    ensures Aiming(g) ==>
      && !r.sling.isDragging && r.proj.isFlying
      && r.proj.x == g.proj.x && r.proj.y == g.proj.y
      && r.proj.vx == g.sling.force * m.cos(g.sling.angle) * -LaunchPower
      && r.proj.vy == g.sling.force * m.sin(g.sling.angle) * -LaunchPower
      && r.sling.angle == g.sling.angle && r.sling.force == g.sling.force
      && r.target == g.target && r.mouse == g.mouse && r.successCount == g.successCount
      && r.timeLeft == g.timeLeft && r.gameOver == g.gameOver
  {
    if Aiming(g) then
      var f := g.sling.force;
      var a := g.sling.angle;
      g.(sling := g.sling.(isDragging := false),
         proj := g.proj.(isFlying := true,
                         vx := f * m.cos(a) * -LaunchPower,
                         vy := f * m.sin(a) * -LaunchPower))
    else
      g
  }

  /** With a lawful `hypot` the pull distance after a drag lies in
      [0, MaxPull], and equals the pointer's distance from the anchor while
      that distance is within the cap. */
  lemma PullClamp(g: Game, m: MathLib, px: real, py: real)
    requires HypotLaw(m)
    requires Aiming(g)
    ensures 0.0 <= MouseMove(g, m, px, py).sling.force <= MaxPull
    ensures var d2 := (px - AnchorX) * (px - AnchorX) + (py - AnchorY) * (py - AnchorY);
      d2 <= MaxPull * MaxPull ==> MouseMove(g, m, px, py).sling.force * MouseMove(g, m, px, py).sling.force == d2
  {
    var dx := px - AnchorX;
    var dy := py - AnchorY;
    WithinRadius(m, dx, dy, MaxPull);
  }

  /** The product of a pull in [0, MaxPull], a factor in [-1, 1] and the
      launch power is at most MaxPull * LaunchPower = 36 in magnitude. */
  lemma LaunchComponentBound(f: real, c: real)
    requires 0.0 <= f <= MaxPull && -1.0 <= c <= 1.0
    ensures -36.0 <= f * c * -LaunchPower <= 36.0
  {
    if c >= 0.0 {
      calc {
        f * c;
      <= f * 1.0;
      <= 120.0;
      }
    } else {
      calc {
        f * c;
      >= f * -1.0;
      >= -120.0;
      }
    }
  }

  /** A release after a pull within the cap launches the projectile with each
      velocity component at most 36 pixels per frame in magnitude. */
  lemma LaunchSpeedBound(g: Game, m: MathLib)
    requires TrigLaw(m)
    requires Aiming(g) && 0.0 <= g.sling.force <= MaxPull
    ensures Abs(MouseUp(g, m).proj.vx) <= 36.0 && Abs(MouseUp(g, m).proj.vy) <= 36.0
  {
    LaunchComponentBound(g.sling.force, m.cos(g.sling.angle));
    LaunchComponentBound(g.sling.force, m.sin(g.sling.angle));
  }

  /** A drag followed by a release launches the projectile along the line of
      the pull and away from the pointer; within the cap the launch velocity
      is exactly `-LaunchPower` times the pull vector, and beyond it the
      speed is exactly `LaunchPower * MaxPull` = 36. */
  lemma LaunchOpposesPull(g: Game, m: MathLib, px: real, py: real)
    requires HypotLaw(m) && PolarLaw(m)
    requires Aiming(g)
    ensures var dx := px - AnchorX;
      var dy := py - AnchorY;
      var p := MouseUp(MouseMove(g, m, px, py), m).proj;
      && p.isFlying
      && p.vx * dy == p.vy * dx
      && p.vx * dx + p.vy * dy <= 0.0
      && (dx * dx + dy * dy <= MaxPull * MaxPull ==> p.vx == -LaunchPower * dx && p.vy == -LaunchPower * dy)
      && (dx * dx + dy * dy > MaxPull * MaxPull ==> p.vx * p.vx + p.vy * p.vy == 36.0 * 36.0)
  {
    var dx := px - AnchorX;
    var dy := py - AnchorY;
    var h := m.hypot(dx, dy);
    var c := m.cos(m.atan2(dy, dx));
    var s := m.sin(m.atan2(dy, dx));
    assert h >= 0.0 && h * h == dx * dx + dy * dy;
    assert c * h == dx && s * h == dy;
    var f := Min(MaxPull, h);
    var k := -LaunchPower * f;
    var p := MouseUp(MouseMove(g, m, px, py), m).proj;
    assert p.vx == k * c && p.vy == k * s;
    PolarScaling(k, c, s, h, dx, dy);
    WithinRadius(m, dx, dy, MaxPull);
    if dx * dx + dy * dy <= MaxPull * MaxPull {
      assert f == h;
      calc {
        p.vx;
      == k * c;
      == -LaunchPower * (c * h);
      == -LaunchPower * dx;
      }
      calc {
        p.vy;
      == k * s;
      == -LaunchPower * (s * h);
      == -LaunchPower * dy;
      }
    } else {
      assert f == MaxPull;
      UnitDirection(c, s, h, dx, dy);
      calc {
        p.vx * p.vx + p.vy * p.vy;
      == (k * c) * (k * c) + (k * s) * (k * s);
      == (k * k) * (c * c + s * s);
      == k * k;
      == 36.0 * 36.0;
      }
    }
  }

  /** A vector of positive length h written as h * (c, s) has (c, s) on the
      unit circle. */
  lemma UnitDirection(c: real, s: real, h: real, dx: real, dy: real)
    requires h > 0.0
    requires c * h == dx && s * h == dy && h * h == dx * dx + dy * dy
    ensures c * c + s * s == 1.0
  {
    var n := c * c + s * s;
    var q := h * h;
    ScaledNorm(c, s, h, dx, dy, n, q);
    SquarePositive(h, q);
    CancelPositive(n, 1.0, q);
  }

  lemma SquarePositive(h: real, q: real)
    requires h > 0.0 && q == h * h
    ensures q > 0.0
  {
    calc {
      q;
    == h * h;
    >  0.0 * h;
    == 0.0;
    }
  }

  lemma ScaledNorm(c: real, s: real, h: real, dx: real, dy: real, n: real, q: real)
    requires c * h == dx && s * h == dy && h * h == dx * dx + dy * dy
    requires n == c * c + s * s && q == h * h
    ensures n * q == 1.0 * q
  {
    calc {
      n * q;
    == (c * c + s * s) * (h * h);
    == (c * h) * (c * h) + (s * h) * (s * h);
    == dx * dx + dy * dy;
    == 1.0 * q;
    }
  }

  /** A common positive factor can be cancelled. */
  lemma CancelPositive(a: real, b: real, q: real)
    requires q > 0.0
    requires a * q == b * q
    ensures a == b
  {
    if a < b {
      PositiveProduct(b - a, q);
    } else if b < a {
      PositiveProduct(a - b, q);
    }
  }

  /** Scaling the unit direction (c, s) of a vector (dx, dy) = h * (c, s) by
      k <= 0 gives a vector on the same line, pointing the other way. */
  lemma PolarScaling(k: real, c: real, s: real, h: real, dx: real, dy: real)
    requires k <= 0.0 && h >= 0.0
    requires c * h == dx && s * h == dy
    ensures (k * c) * dy == (k * s) * dx
    ensures (k * c) * dx + (k * s) * dy <= 0.0
  {
    calc {
      (k * c) * dy;
    == (k * c) * (s * h);
    == (k * s) * (c * h);
    == (k * s) * dx;
    }
    var n := c * c + s * s;
    assert n >= 0.0;
    calc {
      (k * c) * dx + (k * s) * dy;
    == (k * c) * (c * h) + (k * s) * (s * h);
    == (k * h) * n;
    }
    assert k * h <= 0.0;
    assert (k * h) * n <= 0.0;
  }
}

=== FILE: numerics.dfy ===
/** The floating-point library functions the game calls. Their real values are
    outside the model: a session is given a `MathLib` of arbitrary functions,
    and the lemmas that need a law of them ask for it explicitly. */
module Numerics {

  /** Math.hypot, Math.atan2, Math.cos and Math.sin as function values.
      `atan2` takes its arguments in the library's order: (dy, dx). */
  datatype MathLib = MathLib(
    hypot: (real, real) -> real,
    atan2: (real, real) -> real,
    cos: real -> real,
    sin: real -> real)

  /** `hypot` never returns a negative length. */
  ghost predicate HypotNonNegative(m: MathLib) {
    forall x: real, y: real :: m.hypot(x, y) >= 0.0
  }

  /** `hypot` is the Euclidean length: non-negative, and its square is the
      sum of squares. */
  ghost predicate HypotLaw(m: MathLib) {
    forall x: real, y: real ::
      m.hypot(x, y) >= 0.0 && m.hypot(x, y) * m.hypot(x, y) == x * x + y * y
  }

  /** `cos` and `sin` stay within [-1, 1]. */
  ghost predicate TrigLaw(m: MathLib) {
    forall a: real :: -1.0 <= m.cos(a) <= 1.0 && -1.0 <= m.sin(a) <= 1.0
  }

  /** `atan2` returns the polar angle: scaling its cosine and sine by the
      length gives back the vector. */
  ghost predicate PolarLaw(m: MathLib) {
    forall x: real, y: real ::
      m.cos(m.atan2(y, x)) * m.hypot(x, y) == x && m.sin(m.atan2(y, x)) * m.hypot(x, y) == y
  }

  function Abs(x: real): real {
    if x < 0.0 then -x else x
  }

  function Min(a: real, b: real): real {
    if a <= b then a else b
  }

  /** The product of two positive reals is positive. */
  lemma PositiveProduct(a: real, b: real)
    requires a > 0.0 && b > 0.0
    ensures a * b > 0.0
  {
  }

  /** On non-negative reals, squaring preserves and reflects the order. */
  lemma SquareMonotone(a: real, b: real)
    requires a >= 0.0 && b >= 0.0
    ensures a <= b <==> a * a <= b * b
  {
    if a < b {
      PositiveProduct(b - a, b + a);
    } else if b < a {
      PositiveProduct(a - b, a + b);
    }
  }

  /** Comparing a length against a radius is the same as comparing squares,
      which is why the game's distance tests can be stated without `hypot`. */
  lemma WithinRadius(m: MathLib, dx: real, dy: real, rad: real)
    requires HypotLaw(m)
    requires rad >= 0.0
    ensures m.hypot(dx, dy) <= rad <==> dx * dx + dy * dy <= rad * rad
  {
    var h := m.hypot(dx, dy);
    assert h >= 0.0 && h * h == dx * dx + dy * dy;
    SquareMonotone(h, rad);
  }
}

=== FILE: physics.dfy ===
/** One frame of the physics step: gravity, air resistance, integration,
    ground and wall response, and target contact. */
module Physics {
  import opened Config
  import opened Numerics
  import opened State
  import opened Random
  import opened Targets

  /** Gravity is added to the vertical velocity, then both components are
      scaled by the air resistance factor. */
  function Accelerate(p: Projectile): Projectile {
    p.(vx := p.vx * AirResistance, vy := (p.vy + Gravity) * AirResistance)
  }

  /** The position moves by the (already updated) velocity. */
  function Advance(p: Projectile): Projectile {
    p.(x := p.x + p.vx, y := p.y + p.vy)
  }

  /** Below the ground line the projectile is put back on it, its vertical
      velocity reverses at 60% of its magnitude and its horizontal velocity
      keeps 80% of its magnitude. Above it nothing changes. */
  function GroundCollision(p: Projectile): (r: Projectile)
    ensures AboveGround(r)
    ensures r.x == p.x && r.isFlying == p.isFlying
    ensures AboveGround(p) ==> r == p
    ensures !AboveGround(p) ==>
      && r.y == Height - Radius
      && Abs(r.vy) == 0.6 * Abs(p.vy) && Abs(r.vx) == GroundFriction * Abs(p.vx)
      && (p.vy > 0.0 ==> r.vy < 0.0) && (p.vy < 0.0 ==> r.vy > 0.0)
      && (p.vx > 0.0 ==> r.vx > 0.0) && (p.vx < 0.0 ==> r.vx < 0.0)
  {
    if p.y + Radius > Height then
      p.(y := Height - Radius, vy := p.vy * Bounce, vx := p.vx * GroundFriction)
    else
      p
  }

  /** The centre is closer than one radius to the left or right edge. */
  predicate OutsideWalls(p: Projectile) {
    p.x + Radius > Width || p.x - Radius < 0.0
  }

  /** At a side wall the horizontal velocity reverses at 60% of its
      magnitude. The position is not pushed back inside, and nothing but the
      horizontal velocity changes. */
  function WallCollision(p: Projectile): (r: Projectile)
    ensures r.x == p.x && r.y == p.y && r.vy == p.vy && r.isFlying == p.isFlying
    ensures !OutsideWalls(p) ==> r == p
    ensures OutsideWalls(p) ==>
      && Abs(r.vx) == 0.6 * Abs(p.vx)
      && (p.vx > 0.0 ==> r.vx < 0.0) && (p.vx < 0.0 ==> r.vx > 0.0)
  {
    if OutsideWalls(p) then p.(vx := p.vx * Bounce) else p
  }

  /** The motion part of a frame, before the target is looked at: the
      projectile moves by its velocity after gravity and drag, and is never
      pushed back horizontally; in the air its height and vertical velocity
      follow gravity and drag alone, and on landing it is put on the ground
      line with that vertical velocity reversed at 60%; the horizontal speed decays at least by
      the drag factor every frame. */
  function Flight(p: Projectile): (r: Projectile)
    ensures AboveGround(r)
    ensures r.isFlying == p.isFlying
    ensures r.x == p.x + p.vx * AirResistance
    ensures Abs(r.vx) <= AirResistance * Abs(p.vx)
    ensures AboveGround(Advance(Accelerate(p))) ==>
      && r.y == p.y + (p.vy + Gravity) * AirResistance
      && r.vy == (p.vy + Gravity) * AirResistance
    ensures !AboveGround(Advance(Accelerate(p))) ==>
      && r.y == Height - Radius
      && r.vy == (p.vy + Gravity) * AirResistance * Bounce
  {
    WallCollision(GroundCollision(Advance(Accelerate(p))))
  }

  /** A frame only does something while the projectile flies and the game is
      not over. */
  predicate Active(g: Game) {
    g.proj.isFlying && !g.gameOver
  }

  /** If the projectile touches a target that is not already marked hit, the
      hit is counted and the target relocated (which clears the mark again). */
  function TargetContact(g: Game, rx: Draw, ry: Draw): (r: Game)
    ensures r.proj == g.proj && r.sling == g.sling && r.mouse == g.mouse
    ensures r.timeLeft == g.timeLeft && r.gameOver == g.gameOver
    ensures r.successCount == g.successCount ==> r.target == g.target
    ensures r.successCount != g.successCount ==>
      r.successCount == g.successCount + 1 && InRegion(r.target) && !r.target.hit
    ensures r.successCount == g.successCount + 1 <==> Touching(g.proj, g.target) && !g.target.hit
  {
    if Touching(g.proj, g.target) && !g.target.hit then
      // the program marks the target hit and the relocation clears the mark
      // again in the same frame, so only the relocated target is kept
      g.(successCount := g.successCount + 1, target := ResetTarget(rx, ry))
    else
      g
  }

  /** One animation frame. `rx` and `ry` are the two random draws a
      relocation of the target would consume. */
  function Update(g: Game, rx: Draw, ry: Draw): (r: Game)
    ensures !Active(g) ==> r == g
    ensures Active(g) ==> r.proj == Flight(g.proj)
    ensures Active(g) ==> AboveGround(r.proj)
    ensures r.proj.isFlying == g.proj.isFlying
    ensures r.sling == g.sling && r.mouse == g.mouse
    ensures r.timeLeft == g.timeLeft && r.gameOver == g.gameOver
    ensures r.successCount == g.successCount || r.successCount == g.successCount + 1
    ensures r.successCount == g.successCount + 1 <==>
      Active(g) && !g.target.hit && Touching(Flight(g.proj), g.target)
    ensures r.successCount == g.successCount ==> r.target == g.target
    ensures r.successCount != g.successCount ==> InRegion(r.target)
    ensures !g.target.hit ==> !r.target.hit
  {
    if Active(g) then
      TargetContact(g.(proj := Flight(g.proj)), rx, ry)
    else
      g
  }

  /** A projectile that was above the ground before a frame and lands during
      it leaves the frame moving upwards. */
  lemma LandingBouncesUp(p: Projectile)
    requires AboveGround(p)
    requires !AboveGround(Advance(Accelerate(p)))
    ensures Flight(p).vy < 0.0 && Flight(p).y == Height - Radius
  {
    var q := Advance(Accelerate(p));
    assert q.y == p.y + Accelerate(p).vy;
    assert q.vy > 0.0;
  }
}

=== FILE: scenarios.dfy ===
/** Concrete single-step situations, worked out with the model's exact
    arithmetic. */
module Scenarios {
  import opened Config
  import opened Numerics
  import opened State
  import opened Random
  import opened Targets
  import opened Physics
  import opened Input
  import opened Session

  /** A running game with a flying projectile and the given target. */
  function InFlight(x: real, y: real, vx: real, vy: real, t: Target): (g: Game)
    ensures Active(g)
  {
    Game(Slingshot(false, 0.0, 0.0), Projectile(x, y, vx, vy, true), t, Point(0.0, 0.0), 0, 10, false)
  }

  /** A projectile one frame above the ground, falling at 10 pixels per frame,
      is put back on the ground line at y = 585 and bounces up at 6.237
      pixels per frame, with its horizontal speed damped by air and ground. */
  lemma GroundBounceScenario(rx: Draw, ry: Draw)
    ensures var g := Update(InFlight(300.0, 584.0, 2.0, 10.0, Target(700, 100, false)), rx, ry);
      && g.proj.y == 585.0 && g.proj.vy == -6.237
      && g.proj.vx == 1.584 && g.proj.x == 301.98
      && g.successCount == 0
  {
  }

  /** A projectile near the right wall moving right has its horizontal
      velocity reversed, but stays beyond the wall line for this frame. */
  lemma WallOverlapScenario(rx: Draw, ry: Draw)
    ensures var g := Update(InFlight(790.0, 300.0, 5.0, 0.0, Target(400, 100, false)), rx, ry);
      && g.proj.x == 794.95 && g.proj.x + Radius > Width
      && g.proj.vx == -2.97
  {
  }

  /** A projectile arriving at (410, 310) overlaps a target at (400, 300):
      the hit is counted once and the target moves into its region. */
  lemma TargetHitScenario(rx: Draw, ry: Draw)
    ensures var g := Update(InFlight(410.0, 309.505, 0.0, 0.0, Target(400, 300, false)), rx, ry);
      && g.proj.x == 410.0 && g.proj.y == 310.0
      && g.successCount == 1
      && InRegion(g.target) && !g.target.hit
  {
    var p := Flight(Projectile(410.0, 309.505, 0.0, 0.0, true));
    assert p.x == 410.0 && p.y == 310.0;
    assert Touching(p, Target(400, 300, false));
  }

  /** Releasing a full pull with the pointer straight to the left of the
      anchor (so the pull angle's cosine is -1 and sine 0, as for an angle of
      pi) launches the projectile rightwards at 36 pixels per frame. */
  lemma FullPullLaunchScenario(g: Game, m: MathLib)
    requires Aiming(g) && g.sling.force == MaxPull
    requires m.cos(g.sling.angle) == -1.0 && m.sin(g.sling.angle) == 0.0
    ensures var h := MouseUp(g, m);
      && h.proj.isFlying && !h.sling.isDragging
      && h.proj.vx == 36.0 && h.proj.vy == 0.0
  {
  }

  /** After the game is over a press on the anchor still starts a drag and
      resets the projectile, but the drag and the release that follow change
      nothing. */
  lemma PressAfterGameOverScenario(g: Game, m: MathLib, x: real, y: real)
    requires g.gameOver
    ensures var h := MouseDown(g, AnchorX, AnchorY);
      && h.sling.isDragging && AtAnchor(h.proj) && !h.proj.isFlying
      && MouseMove(h, m, x, y) == h && MouseUp(h, m) == h
  {
  }

  /** The relocation can put the target back under the projectile, and then
      the next frame scores again: from a valid state, with both frames
      drawing rx = 2/7 and ry = 4/7 (which relocate to (500, 300)), one
      approach is counted on two consecutive frames. */
  lemma RelocationCanRehit()
    ensures var rx: Draw := 2.0 / 7.0;
      var ry: Draw := 4.0 / 7.0;
      var g := Game(Slingshot(false, 0.0, 0.0), Projectile(500.0, 299.505, 0.0, 0.0, true),
                    Target(500, 300, false), Point(0.0, 0.0), 0, 10, false);
      var g1 := Update(g, rx, ry);
      var g2 := Update(g1, rx, ry);
      && Valid(g)
      && g1.successCount == 1 && g1.target == Target(500, 300, false)
      && g2.successCount == 2
  {
    var rx: Draw := 2.0 / 7.0;
    var ry: Draw := 4.0 / 7.0;
    assert RandomInt(TargetMinX, TargetMaxX, rx) == 500 by {
      assert rx * 350.0 == 100.0;
    }
    assert RandomInt(TargetMinY, TargetMaxY, ry) == 300 by {
      assert ry * 350.0 == 200.0;
    }
    var p1 := Flight(Projectile(500.0, 299.505, 0.0, 0.0, true));
    assert p1.x == 500.0 && p1.y == 300.0;
    var p2 := Flight(p1);
    assert p2.x == 500.0 && p2.y == 300.98505;
  }
}

=== FILE: session.dfy ===
/** A whole session: its initial state, the invariant every reachable state
    satisfies, and the effect of any sequence of inputs. */
module Session {
  import opened Config
  import opened Numerics
  import opened State
  import opened Random
  import opened Targets
  import opened Physics
  import opened Input
  import opened Timer

  /** What the outside world can do to a session: press, drag and release
      the pointer, show a frame (with the two draws a relocation of the target
      would use), or let one second pass. */
  datatype Event =
    | Press(x: real, y: real)
    | Drag(x: real, y: real)
    | Release
    | Frame(rx: Draw, ry: Draw)
    | Second

  /** The invariant of every reachable state. */
  predicate Valid(g: Game) {
    // never aiming and flying at once
    && !(g.sling.isDragging && g.proj.isFlying)
    // the pull distance respects the cap
    && 0.0 <= g.sling.force <= MaxPull
    // a projectile that does not fly rests on the anchor
    && (!g.proj.isFlying ==> AtAnchor(g.proj))
    && AboveGround(g.proj)
    // the target is in its region and never observed as hit
    && !g.target.hit && InRegion(g.target)
    // the countdown
    && 0 <= g.timeLeft <= TimeLimit && (g.gameOver <==> g.timeLeft == 0)
  }

  /** The state at load time: nothing aimed, the projectile on the anchor,
      the target at a random point of its region, no hits and the full time
      on the clock. */
  function Initial(rx: Draw, ry: Draw): (g: Game)
    ensures Valid(g)
    ensures g.successCount == 0 && g.timeLeft == TimeLimit && !g.gameOver
    ensures AtAnchor(g.proj) && !g.proj.isFlying && !g.sling.isDragging
  {
    Game(
      Slingshot(false, 0.0, 0.0),
      Projectile(AnchorX, AnchorY, 0.0, 0.0, false),
      Target(RandomInt(TargetMinX, TargetMaxX, rx), RandomInt(TargetMinY, TargetMaxY, ry), false),
      Point(0.0, 0.0),
      0,
      TimeLimit,
      false)
  }

  /** The transition an event causes. */
  function Step(g: Game, m: MathLib, e: Event): Game {
    match e
    case Press(x, y) => MouseDown(g, x, y)
    case Drag(x, y) => MouseMove(g, m, x, y)
    case Release => MouseUp(g, m)
    case Frame(rx, ry) => Update(g, rx, ry)
    case Second => Tick(g)
  }

  /** The state after a sequence of events, oldest first. */
  function Run(g: Game, m: MathLib, evs: seq<Event>): Game
    decreases |evs|
  {
    if evs == [] then g else Run(Step(g, m, evs[0]), m, evs[1..])
  }

  /** The number of frames in a sequence of events. */
  function Frames(evs: seq<Event>): (n: nat)
    ensures n <= |evs|
  {
    if evs == [] then 0 else (if evs[0].Frame? then 1 else 0) + Frames(evs[1..])
  }

  /** Every handler, the frame and the tick keep the invariant. The drag
      needs a `hypot` that never returns a negative length. */
  lemma StepPreservesValid(g: Game, m: MathLib, e: Event)
    requires HypotNonNegative(m)
    requires Valid(g)
    ensures Valid(Step(g, m, e))
  {
    match e
    case Drag(x, y) =>
      if Aiming(g) {
        assert m.hypot(x - AnchorX, y - AnchorY) >= 0.0;
      }
    case _ =>
  }

  /** Any sequence of events keeps the invariant. */
  lemma {:induction false} RunPreservesValid(g: Game, m: MathLib, evs: seq<Event>)
    requires HypotNonNegative(m)
    requires Valid(g)
    ensures Valid(Run(g, m, evs))
    decreases |evs|
  {
    if evs != [] {
      StepPreservesValid(g, m, evs[0]);
      RunPreservesValid(Step(g, m, evs[0]), m, evs[1..]);
    }
  }

  /** From load time on, whatever the player does, the slingshot is never
      being aimed while the projectile flies, the projectile never sinks below
      the ground, and the target is never seen marked as hit. */
  lemma NeverAimingWhileFlying(rx: Draw, ry: Draw, m: MathLib, evs: seq<Event>)
    requires HypotNonNegative(m)
    ensures var g := Run(Initial(rx, ry), m, evs);
      && !(g.sling.isDragging && g.proj.isFlying)
      && AboveGround(g.proj)
      && !g.target.hit
  {
    RunPreservesValid(Initial(rx, ry), m, evs);
  }

  /** Hits are only ever added, and at most one per frame. */
  lemma {:induction false} ScoreBound(g: Game, m: MathLib, evs: seq<Event>)
    ensures g.successCount <= Run(g, m, evs).successCount <= g.successCount + Frames(evs)
    ensures Run(g, m, evs).successCount <= g.successCount + |evs|
    decreases |evs|
  {
    if evs != [] {
      var h := Step(g, m, evs[0]);
      assert g.successCount <= h.successCount <= g.successCount + (if evs[0].Frame? then 1 else 0);
      ScoreBound(h, m, evs[1..]);
    }
  }

  /** Once the game is over it stays over: the clock, the score and the target
      are frozen, whatever events follow. (A press near the anchor still
      re-arms the slingshot; drags, releases and frames do nothing.) */
  lemma {:induction false} GameOverIsFinal(g: Game, m: MathLib, evs: seq<Event>)
    requires g.gameOver
    ensures var h := Run(g, m, evs);
      && h.gameOver && h.timeLeft == g.timeLeft
      && h.successCount == g.successCount && h.target == g.target
    decreases |evs|
  {
    if evs != [] {
      var h := Step(g, m, evs[0]);
      assert h.gameOver && h.timeLeft == g.timeLeft;
      assert h.successCount == g.successCount && h.target == g.target;
      GameOverIsFinal(h, m, evs[1..]);
    }
  }
}

=== FILE: state.dfy ===
/** The whole mutable state of a game session, as one immutable record. */
module State {
  import opened Config

  /** Aiming state of the slingshot: whether a drag is in progress, and the
      pull angle and pull distance ("force") of the last pointer sample. */
  datatype Slingshot = Slingshot(isDragging: bool, angle: real, force: real)

  /** The projectile's centre and velocity, and whether it is in flight.
      Its radius is the constant `Radius`. */
  datatype Projectile = Projectile(x: real, y: real, vx: real, vy: real, isFlying: bool)

  /** The target's centre, always drawn from integers, and its hit flag. Its
      radius is the constant `TargetRadius`. */
  datatype Target = Target(x: int, y: int, hit: bool)

  /** A pointer position in canvas coordinates. */
  datatype Point = Point(x: real, y: real)

  /** One session: the bodies, the last pointer sample (only drawn, never read
      by the transitions), the hit counter and the countdown. */
  datatype Game = Game(
    sling: Slingshot,
    proj: Projectile,
    target: Target,
    mouse: Point,
    successCount: nat,
    timeLeft: int,
    gameOver: bool)

  /** The projectile sits on the anchor and does not move. */
  predicate AtAnchor(p: Projectile) {
    p.x == AnchorX && p.y == AnchorY && p.vx == 0.0 && p.vy == 0.0
  }

  /** The projectile's lowest point is not below the ground line. */
  predicate AboveGround(p: Projectile) {
    p.y + Radius <= Height
  }

  /** The projectile touches or overlaps the target: the distance between the
      centres is at most the sum of the radii, compared squared. */
  predicate Touching(p: Projectile, t: Target) {
    var dx := p.x - t.x as real;
    var dy := p.y - t.y as real;
    dx * dx + dy * dy <= (Radius + TargetRadius) * (Radius + TargetRadius)
  }
}

=== FILE: target.dfy ===
/** The random source the game draws from, and the target relocation built
    on it. */
module Random {

  /** A value returned by the platform's uniform random source: a real in
      [0, 1). The draws themselves are inputs of the model. */
  type Draw = r: real | 0.0 <= r < 1.0

  /** Scales a draw to an integer between `min` and `max`: the floor of
      `r * (max - min) + min`. For `min < max` the result lies in
      [min, max - 1]; with the bounds swapped it lies in [max, min]. */
  function RandomInt(min: int, max: int, r: Draw): (k: int)
    ensures min < max ==> min <= k < max
    ensures max <= min ==> max <= k <= min
    ensures r == 0.0 ==> k == min
  {
    FloorRange(min, max, r);
    (r * (max - min) as real + min as real).Floor
  }

  lemma FloorRange(min: int, max: int, r: Draw)
    ensures var k := (r * (max - min) as real + min as real).Floor;
      && (min < max ==> min <= k < max)
      && (max <= min ==> max <= k <= min)
  {
    if min < max {
      ScaledBelow(r, min, max);
      FloorShift(r * (max - min) as real, min, min, max - 1);
    } else {
      ScaledAbove(r, min, max);
      FloorShift(r * (max - min) as real, min, max, min);
    }
  }

  /** An offset shifted by `base` that lies in [lo, hi + 1) has its floor
      in [lo, hi]. */
  lemma FloorShift(offset: real, base: int, lo: int, hi: int)
    requires lo as real <= offset + base as real < hi as real + 1.0
    ensures lo <= (offset + base as real).Floor <= hi
  {
  }

  lemma ScaledBelow(r: Draw, min: int, max: int)
    requires min < max
    ensures min as real <= r * (max - min) as real + min as real < max as real
  {
    var span := (max - min) as real;
    Scale(r, span);
  }

  lemma ScaledAbove(r: Draw, min: int, max: int)
    requires max <= min
    ensures max as real <= r * (max - min) as real + min as real <= min as real
  {
    var span := (max - min) as real;
    Scale(r, span);
  }

  /** A draw scales a span to a value between 0 and the span, reaching the
      span only when it is zero. */
  lemma Scale(r: Draw, span: real)
    ensures span > 0.0 ==> 0.0 <= r * span < span
    ensures span <= 0.0 ==> span <= r * span <= 0.0
  {
    if span > 0.0 {
      calc {
        r * span;
      <  1.0 * span;
      }
    } else {
      calc {
        span;
      == 1.0 * span;
      <= r * span;
      }
    }
  }

  /** Every integer of [min, max) is the image of some draw, so the range
      stated by `RandomInt` is exact. */
  lemma RandomIntCovers(min: int, max: int, k: int)
    requires min <= k < max
    ensures exists r: Draw :: RandomInt(min, max, r) == k
  {
    var span := (max - min) as real;
    var r: real := (k - min) as real / span;
    assert 0.0 <= r < 1.0;
    assert r * span == (k - min) as real;
    assert RandomInt(min, max, r) == k;
  }
}

/** Placement of the target inside its region of the canvas. */
module Targets {
  import opened Config
  import opened State
  import opened Random

  /** The region targets are placed in: integer coordinates with x in
      [TargetMinX, TargetMaxX) and y in [TargetMinY, TargetMaxY). */
  predicate InRegion(t: Target) {
    TargetMinX <= t.x < TargetMaxX && TargetMinY <= t.y < TargetMaxY
  }

  /** Moves the target to a random point of its region and clears its hit
      flag. The new target does not depend on the old one. */
  function ResetTarget(rx: Draw, ry: Draw): (r: Target)
    ensures InRegion(r)
    ensures !r.hit
    ensures 400 <= r.x <= 749 && 100 <= r.y <= 449
  {
    Target(RandomInt(TargetMinX, TargetMaxX, rx), RandomInt(TargetMinY, TargetMaxY, ry), false)
  }

  /** Every point of the region is a possible relocation. */
  lemma ResetTargetCovers(x: int, y: int)
    requires TargetMinX <= x < TargetMaxX && TargetMinY <= y < TargetMaxY
    ensures exists rx: Draw, ry: Draw :: ResetTarget(rx, ry) == Target(x, y, false)
  {
    RandomIntCovers(TargetMinX, TargetMaxX, x);
    RandomIntCovers(TargetMinY, TargetMaxY, y);
    var rx: Draw :| RandomInt(TargetMinX, TargetMaxX, rx) == x;
    var ry: Draw :| RandomInt(TargetMinY, TargetMaxY, ry) == y;
    assert ResetTarget(rx, ry) == Target(x, y, false);
  }
}

=== FILE: timer.dfy ===
/** The once-per-second countdown that ends a session. */
module Timer {
  import opened Config
  import opened State

  /** One tick of the countdown: while the game runs, a second is taken off
      and the game ends when no time is left. After the end it does nothing. */
  function Tick(g: Game): (r: Game)
    ensures g.gameOver ==> r == g
    ensures !g.gameOver ==> r.timeLeft == g.timeLeft - 1 && (r.gameOver <==> r.timeLeft <= 0)
    ensures r == g.(timeLeft := r.timeLeft, gameOver := r.gameOver)
  {
    if !g.gameOver then
      var left := g.timeLeft - 1;
      g.(timeLeft := left, gameOver := left <= 0)
    else
      g
  }

  /** `n` consecutive ticks. */
  function Ticks(g: Game, n: nat): (r: Game)
    ensures g.gameOver ==> r == g
    ensures r == g.(timeLeft := r.timeLeft, gameOver := r.gameOver)
    ensures r.timeLeft <= g.timeLeft
    decreases n
  {
    if n == 0 then g else Ticks(Tick(g), n - 1)
  }

  /** From a running game with `t >= 1` seconds left, `n` ticks leave
      `max(t - n, 0)` seconds, and the game is over exactly when `n >= t`:
      the countdown stops at zero and never goes below it. */
  lemma {:induction false} Countdown(g: Game, n: nat)
    requires !g.gameOver && g.timeLeft >= 1
    ensures Ticks(g, n).timeLeft == if n >= g.timeLeft then 0 else g.timeLeft - n
    ensures Ticks(g, n).gameOver <==> n >= g.timeLeft
    decreases n
  {
    if n > 0 {
      var h := Tick(g);
      if g.timeLeft == 1 {
        assert h.gameOver && h.timeLeft == 0;
        assert Ticks(h, n - 1) == h;
      } else {
        Countdown(h, n - 1);
      }
    }
  }

  /** A fresh session ends after exactly `TimeLimit` ticks. */
  lemma SessionLength(g: Game, n: nat)
    requires !g.gameOver && g.timeLeft == TimeLimit
    ensures Ticks(g, n).gameOver <==> n >= 30
    ensures 0 <= Ticks(g, n).timeLeft <= 30
  {
    Countdown(g, n);
  }
}
